=== FILE: README.md ===
# Spatial desktop: window registry, gestures, tour and browser history

This project models the core of a browser-hosted simulated desktop. The desktop
hosts mock applications in draggable, resizable, stacked windows, and adds a
dock, a right-click menu and an onboarding tour. Four pieces of it carry state
and rules, and each is modelled as immutable data with pure transition
functions:

- **Window registry** (`registry.dfy`, module `Registry`). A fixed sequence
  of window records, the active window, the global stacking counter `maxZ`
  and the context-menu anchor. It has the handlers focus, open, close,
  minimize, move and resize, the context-menu actions and the dock
  indicators. The registry invariant `Wf` says ids are distinct, stacking
  levels are distinct and all levels are at or below the counter. It holds
  initially, and every handler keeps it. The move clamp is in `geometry.dfy`
  (module `Geometry`).
- **Tour** (`tour.dfy`, module `Tour`). The three fixed steps, a counter
  that runs from -1 to 2, the persisted "completed" flag (held as a
  boolean), and the lookup of the window a step targets.
- **Tour card** (`tour_overlay.dfy`, module `TourOverlay`). Where the card is
  placed, what its step counter and button read, and which tour handler each
  click reaches.
- **Per-window pointer controller** (`gesture.dfy`, module `Gesture`). Two
  independent flags, dragging and resizing, plus the values recorded when
  each gesture started. One step maps a state, an event and the window's
  current record to the next state and the commands sent to the registry.
  `Registry.Apply` runs those commands.
- **Web viewer history** (`browser.dfy`, module `Browser`). The address
  normaliser, and a history list with a cursor. `navigate` truncates the
  list and appends to it; back and forward move the cursor.

Shared records (`AppId`, `Position`, `Size`, `WindowState`, `TourStep`,
`Command`) are in `types.dfy` (module `Types`).

## Behaviour of the code worth knowing

- The registry's resize stores the requested size exactly. Only the
  window's gesture controller applies the 300 by 200 minimum
  (`Gesture.ResizeTarget`).
- Opening a window that is already visible focuses it and then bumps the
  counter again, so `maxZ` advances by 2 (`Registry.OpenVisibleIsFocus`).
- The one-second auto-start of the tour is never cancelled. A tour started by
  hand and skipped before the delay runs out is shown again when the delay
  fires (`Tour.LateAutoStartReopensSkippedTour`).
- The tour's window lookup does not check `isOpen`
  (`Tour.FindWindowIgnoresVisibility`). No shipped step names a window, so the
  lookup never finds one and no card is placed beside a window
  (`Tour.ShippedStepsTargetNoWindow`, `TourOverlay.ShippedPlacements`).
- Nothing enforces one gesture at a time. A window can be dragging and
  resizing at once (`Gesture.DragAndResizeAtOnce`), and every window has its
  own controller.
- The stacking counter starts at 20, while the highest initial level is 16.
  The first window focused gets level 21.

## Model

| member | source | states |
|---|---|---|
| Geometry.Clamp | components/DesktopEnvironment.tsx:231-232 | The result is never below the lower bound. It is at most the upper bound when the interval is non-empty. A value already inside is kept. An empty interval yields the lower bound. Otherwise the result is the point of the interval nearest the requested value. |
| Geometry.ClampPosition | components/DesktopEnvironment.tsx:224-233 | Each coordinate is clamped on its own: x between 50 − width and viewport width − 50, y between 0 and viewport height − 50, each as `Geometry.Clamp` (the nearest point of its interval). So a stored position has x ≥ 50 − width and y ≥ 0. x ≤ viewport width − 50 whenever that bound is consistent. y ≤ viewport height − 50 whenever the height is at least 50. A position already in bounds is stored unchanged. |
| Geometry.ClampPositionIdempotent | components/DesktopEnvironment.tsx:224-233 | Clamping a clamped position changes nothing, even when the viewport is too small for the bounds. |
| Registry.Focus | components/DesktopEnvironment.tsx:184-190 | The focused window's level becomes the new counter (old + 1) and it becomes active. Only that window's level changes. Geometry, flags and the menu are kept. |
| Registry.Open | components/DesktopEnvironment.tsx:192-205 | The window ends up open, not minimized, at level old maxZ + 1, and active. The counter grows by 1, plus 1 for each visible match that gets focused. Other windows, every position and every size are untouched. |
| Registry.Close | components/DesktopEnvironment.tsx:207-212 | Only `isOpen` of that window becomes false. Levels, geometry and the counter are kept. The active id becomes None when it was this window, and is kept otherwise. |
| Registry.Minimize | components/DesktopEnvironment.tsx:214-219 | Only `isMinimized` of that window becomes true. Levels, geometry and the counter are kept. The active id becomes None when it was this window, and is kept otherwise. |
| Registry.Move | components/DesktopEnvironment.tsx:221-238 | Only the position of the named window changes. It becomes the request clamped for that window's own size and the viewport, x and y independently. It satisfies the clamp bounds, and an in-bounds request is stored exactly. |
| Registry.Resize | components/DesktopEnvironment.tsx:240-247 | The named window's size becomes exactly the requested size, with no minimum. Nothing else changes. |
| Registry.Apply | components/DesktopEnvironment.tsx:313-320 | Each command reaches its own handler: focus, move (with the viewport), resize, minimize or close, on the window it names. Only that window changes. No window is added, removed or renamed, and the menu is left alone. |
| Registry.ApplyAll | components/DesktopEnvironment.tsx:313-320 | A run of commands keeps every window slot and id. A window that none of the commands names is left exactly as it was. |
| Registry.ApplyAllSnoc | components/DesktopEnvironment.tsx:313-320 | Running a batch and then one more command equals running the longer batch, so commands take effect one at a time in emission order. |
| Registry.ApplyAllSingle | components/DesktopEnvironment.tsx:313-320 | A batch of one command has the effect of that command alone. |
| Registry.UpdateWhere | components/DesktopEnvironment.tsx:186-188 | Every window carrying the id is rewritten by the update, in place. Every other window is kept, and the length and order are kept. |
| Registry.DockShowsDot | components/Dock.tsx:41 | The dock's dot is lit while the app is open, whether or not it is minimized. |
| Registry.DockHighlights | components/Dock.tsx:31 | The dock highlights an app while it is open and not minimized. Only an app that shows the dot can be highlighted. |
| Registry.DockRings | components/Dock.tsx:32 | The dock rings the app whose id is the active one. |
| Registry.OpenMenu | components/DesktopEnvironment.tsx:157-160 | A right-click anchors the menu at the pointer and changes nothing else. |
| Registry.DismissMenu | components/DesktopEnvironment.tsx:152-154 | A click elsewhere closes the menu and changes nothing else. |
| Registry.ContextAction | components/DesktopEnvironment.tsx:162-167 | Every menu action closes the menu. "settings" opens the settings window and "new_folder" opens the file manager. Every other action leaves the desktop as it was. |
| Registry.InitialWf | components/DesktopEnvironment.tsx:34-131 | The initial seven windows have distinct ids and distinct levels, all strictly below the counter. |
| Registry.CountVisibleAtMostOne | components/DesktopEnvironment.tsx:192-205 | With distinct ids, open focuses at most once. It focuses exactly when a window with that id is visible. |
| Registry.FocusKeepsWf | components/DesktopEnvironment.tsx:184-190 | Focus keeps the registry invariant. |
| Registry.FocusPutsOnTop | components/DesktopEnvironment.tsx:184-190 | After focus, the focused window is strictly above every other window. |
| Registry.FocusSequenceIncreases | components/DesktopEnvironment.tsx:184-190 | Focusing a and then b raises a above its old level and then puts b above a. |
| Registry.OpenKeepsWf | components/DesktopEnvironment.tsx:192-205 | Open keeps the registry invariant, whether the window was visible or not. |
| Registry.OpenPutsOnTop | components/DesktopEnvironment.tsx:192-205 | The opened window is visible, at or below the counter, and strictly above every other window. |
| Registry.OpenVisibleIsFocus | components/DesktopEnvironment.tsx:192-205 | Opening a visible window equals focusing it, except that the counter ends 2 higher. Its open and minimized flags are unchanged. |
| Registry.OpenHiddenCountsOnce | components/DesktopEnvironment.tsx:192-205 | Opening a closed or minimized window advances the counter by exactly 1 and makes it visible. |
| Registry.CloseThenOpenRestoresGeometry | components/DesktopEnvironment.tsx:192-212 | Close followed by open gives back every window's position and size, and the window is visible again. |
| Registry.CloseKeepsWf | components/DesktopEnvironment.tsx:207-212 | Close keeps the registry invariant. |
| Registry.MinimizeKeepsWf | components/DesktopEnvironment.tsx:214-219 | Minimize keeps the registry invariant. |
| Registry.MoveKeepsWf | components/DesktopEnvironment.tsx:221-238 | Move keeps the registry invariant. |
| Registry.ResizeKeepsWf | components/DesktopEnvironment.tsx:240-247 | Resize keeps the registry invariant. |
| Registry.MoveIdempotent | components/DesktopEnvironment.tsx:221-238 | Repeating a move with the same request changes nothing more. |
| Registry.ApplyKeepsWf | components/DesktopEnvironment.tsx:313-320 | Any window command keeps the registry invariant. |
| Registry.ApplyAllKeepsWf | components/DesktopEnvironment.tsx:313-320 | Any sequence of window commands keeps the registry invariant. |
| Registry.ContextActionKeepsWf | components/DesktopEnvironment.tsx:162-167 | Menu actions keep the registry invariant. |
| Registry.DockAfterOpenAndMinimize | components/Dock.tsx:31-41 | After open, the dock shows the app with a dot, a highlight and a ring. After a later minimize it keeps the dot but loses the highlight and the ring. |
| Tour.Mount | components/DesktopEnvironment.tsx:135-150 | At mount no tour is shown, and the completed flag is the stored one. |
| Tour.Start | components/DesktopEnvironment.tsx:139-149 | The auto-start and the restart button both show the first step and keep the completed flag. |
| Tour.Next | components/DesktopEnvironment.tsx:169-177 | Next moves to the following step while one exists. Otherwise it ends the tour and stores the completed flag. It keeps the index within range. |
| Tour.Skip | components/DesktopEnvironment.tsx:179-182 | Skip ends the tour from any state and stores the completed flag. |
| Tour.CurrentStep | components/DesktopEnvironment.tsx:297-301 | A step is shown exactly when the index names one of the steps, and it is the step at that index. |
| Tour.FindWindow | components/DesktopEnvironment.tsx:249 | Finds a window exactly when some window has the wanted id. The result carries that id and is the first such window. |
| Tour.TargetWindow | components/DesktopEnvironment.tsx:249 | The window found is the one named by the current step's target id. |
| Tour.EventsKeepValid | components/DesktopEnvironment.tsx:135-182 | Next, Skip and Start keep the index in [-1, 2]. |
| Tour.AdvanceCompletes | components/DesktopEnvironment.tsx:169-177 | From step i, the next 3 − i − 1 Nexts show the remaining steps in order. The Next after the last step ends the tour with the flag stored. |
| Tour.ThreeNextsFromStart | components/DesktopEnvironment.tsx:169-177 | Three Nexts after a start end the tour with the flag stored. Two Nexts leave it active. |
| Tour.LateAutoStartReopensSkippedTour | components/DesktopEnvironment.tsx:147-150 | Start after Skip shows the tour again, although the completed flag is already stored. The delayed auto-start is the `Tour.Start` event, and nothing cancels it. |
| Tour.FindWindowIgnoresVisibility | components/DesktopEnvironment.tsx:249 | A closed window is found just as an open one is. |
| Tour.ShippedStepsTargetNoWindow | components/DesktopEnvironment.tsx:16-32 | No shipped step names a window, so the lookup always finds nothing. |
| TourOverlay.Placement | components/ui/TourOverlay.tsx:27-45 | The dock target maps to the bottom-centre anchor (120 px), and only it does. The status target maps to top 80, left 20. A window target with both position and size goes beside the window: its top is at the window's vertical middle and its left edge is 20 px right of the window's right edge. Anything else is centred. |
| TourOverlay.NextLabel | components/ui/TourOverlay.tsx:83 | The button reads "Initialize" exactly on the last step, and "Next" otherwise. |
| TourOverlay.Render | components/DesktopEnvironment.tsx:297-307 | A card is drawn exactly while the tour is active. It shows the step at the current index and "step n of 3" with 1 ≤ n ≤ 3. Its button reads "Initialize" when n is the last and "Next" otherwise. |
| TourOverlay.OnClick | components/ui/TourOverlay.tsx:50-80 | The backdrop and the X end the tour and store the flag. The forward button advances, or ends the tour after the last step. Every click keeps the index in range. |
| TourOverlay.OnlyNextButtonAdvances | components/ui/TourOverlay.tsx:80 | Before the last step, a click advances the tour exactly when it is the forward button. |
| TourOverlay.BackdropIsCloseButton | components/ui/TourOverlay.tsx:50-65 | The backdrop and the X both call skip. |
| TourOverlay.ShippedPlacements | components/ui/TourOverlay.tsx:27-45 | With the shipped steps, cards 1 and 3 are centred and card 2 sits above the dock. No card is ever placed beside a window. |
| Gesture.ResizeTarget | components/SpatialWindow.tsx:40-47 | Each side is the larger of its minimum (300 wide, 200 high) and the start size plus the pointer's travel since the press. The result is at least both, and equal to one of them. |
| Gesture.Step | components/SpatialWindow.tsx:32-128 | Commands name only this window. Every resize request meets the minimum. Presses on a hidden window do nothing. A release clears both flags and emits nothing. Only a title-bar press starts a drag and only a handle press starts a resize. A move with no gesture emits nothing. The title-bar minimize and close buttons emit exactly a minimize or a close of this window. A handle press leaves the drag flag and offset alone, and a title-bar press leaves the resize flag and its recorded start alone, so neither press cancels the other gesture. |
| Gesture.DragStartDoesNotJump | components/SpatialWindow.tsx:67-78 | A title-bar press emits focus twice (the body hears the press too) and starts a drag. A move to the press point then asks for the window's current position. |
| Gesture.DragFollowsPointer | components/SpatialWindow.tsx:33-38 | While only dragging, each move emits exactly one move request: the pointer less the recorded offset. |
| Gesture.ResizeIsRelativeToStart | components/SpatialWindow.tsx:40-47 | What a resize move emits does not depend on the window's current size. It depends only on the recorded start values and the pointer. |
| Gesture.ResizeFollowsPointer | components/SpatialWindow.tsx:40-47 | While only resizing, each move emits exactly one resize request, sized max(minimum, start size + pointer travel since the press), and leaves the state alone. |
| Gesture.DragAndResizeMove | components/SpatialWindow.tsx:32-48 | With both flags set, one move emits the dragged position (pointer less offset) and then the resized size, in that order. |
| Gesture.ResizeBackToStart | components/SpatialWindow.tsx:40-47 | When the start size meets the minimum, returning the pointer to the press point asks for the start size. |
| Gesture.HandlePressRecordsStart | components/SpatialWindow.tsx:80-87 | A handle press focuses once. It records the pointer and the window's size and starts a resize. |
| Gesture.BodyPressOnlyFocuses | components/SpatialWindow.tsx:103 | A body press emits one focus and leaves the gesture state alone. |
| Gesture.TitleBarButtons | components/SpatialWindow.tsx:117-128 | On a shown window the minimize button emits only a minimize command and the close button only a close command, both for this window. Neither starts a gesture. |
| Gesture.ReleaseEndsGesture | components/SpatialWindow.tsx:51-64 | After a release, moving the pointer anywhere emits nothing. |
| Gesture.DragAndResizeAtOnce | components/SpatialWindow.tsx:23-24 | A handle press and then a title-bar press set both flags. One move then emits both a move request and a resize request. |
| Gesture.Run | components/SpatialWindow.tsx:32-103 | Events are handled in order with the state carried along. Every command of the run names this window, and an empty run changes nothing. |
| Gesture.RunSingle | components/SpatialWindow.tsx:32-103 | A run of one event is exactly that event's step. |
| Gesture.RunSplit | components/SpatialWindow.tsx:32-103 | Running two batches of events one after the other equals running them together. The state carries across, and the commands are concatenated. |
| Gesture.RunResizesMeetMinimum | components/SpatialWindow.tsx:40-47 | Over any sequence of events, every resize request meets the minimum. |
| Gesture.DraggedWindowStaysReachable | components/DesktopEnvironment.tsx:221-238 | Once the registry applies a drag move, the window is not above the viewport and at least 50 px of it stays reachable on the left. |
| Browser.Normalize | components/apps/WebBrowser.tsx:12-21 | Input starting with "http" is kept. Input with a dot and no space gets "https://" in front. Anything else becomes the search URL for the encoded input. Every result starts with "http". |
| Browser.Navigate | components/apps/WebBrowser.tsx:12-32 | The frame and the address bar show the normalised target. Entries up to the cursor are kept, the target becomes the new last entry, and the cursor moves onto it. Back is enabled, forward is disabled, and the history invariant holds. |
| Browser.GoBack | components/apps/WebBrowser.tsx:39-47 | When back is possible the cursor moves back one and the frame and address bar show that entry. Otherwise nothing changes. The history list is never touched. |
| Browser.GoForward | components/apps/WebBrowser.tsx:49-57 | When forward is possible the cursor moves forward one and the frame and address bar show that entry. Otherwise nothing changes. The history list is never touched. |
| Browser.EditAddress | components/apps/WebBrowser.tsx:114 | Typing changes only the address bar text and keeps the history invariant. |
| Browser.Submit | components/apps/WebBrowser.tsx:34-37 | Submitting navigates to the normalised address-bar text. The frame and address bar show it, the entries up to the cursor are kept, it becomes the new last entry, and the cursor moves onto it. Back is enabled and forward is disabled. |
| Browser.Home | components/apps/WebBrowser.tsx:98 | The home button navigates to the main page. The entries up to the cursor are kept, the main page becomes the new last entry and is shown, and the cursor moves onto it. Back is enabled and forward is disabled. |
| Browser.BackDisabled | components/apps/WebBrowser.tsx:79 | The back button is disabled while the cursor is on the first entry. |
| Browser.ForwardDisabled | components/apps/WebBrowser.tsx:86 | The forward button is disabled while the cursor is on the last entry. |
| Browser.InitialValid | components/apps/WebBrowser.tsx:5-9 | The initial history holds one entry, which is shown. Both buttons are disabled. |
| Browser.NormalizeFixedPoints | components/apps/WebBrowser.tsx:13-21 | Normalisation leaves an address unchanged exactly when it starts with "http". |
| Browser.NormalizeIdempotent | components/apps/WebBrowser.tsx:13-21 | Normalising twice gives the same as normalising once. |
| Browser.DisabledMeansNoOp | components/apps/WebBrowser.tsx:79-86 | A button is disabled exactly when its guard fails, which is exactly when its handler would change nothing. |
| Browser.BackThenForward | components/apps/WebBrowser.tsx:39-57 | When back is possible, back then forward restores the cursor, the shown URL and the history. |
| Browser.ForwardThenBack | components/apps/WebBrowser.tsx:39-57 | When forward is possible, forward then back restores the cursor, the shown URL and the history. |
| Browser.NavigateAfterBackDropsForward | components/apps/WebBrowser.tsx:27-31 | Navigating after back drops the entries that were ahead, so forward is disabled. Back then shows the entry before the old cursor position. |

## Left out

- Rendering: JSX, styles, icons, animations, the glass panel, the status-bar clock and the tour card's pointer line are all presentation. Window `content` and `icon` are not in the record.
- Persistence: the tour-completed key in local storage is the boolean `TourState.completed`. The stored value is read once, as the argument of `Tour.Mount`.
- Timers: the one-second tour auto-start is modelled as the `Tour.Start` event, with no clock. At mount the page schedules it only when no completed flag is stored (DesktopEnvironment.tsx line 148). The model leaves that decision to whoever sends `Tour.Start`, so no member reads `TourState.completed`. The browser's refresh timeout is left out, along with its temporary blank page.
- Document listeners: attaching and removing them is left out. The listeners are attached exactly while a flag is set, and a move with no flag set emits nothing, so processing document-level moves and releases always behaves the same way.
- Window bounds for drag offsets: the bounding-rectangle read is replaced by the window's stored position.
- Viewport: `innerWidth` and `innerHeight` are the `Viewport` argument of `Registry.Move`.
- URI encoding: `encodeURIComponent` is the function argument `encode` of `Browser.Normalize`.
- Calls into the page: the context menu's "display" alert, the browser's external-open button, iframe loading, the loading flag and the lock icon are left out.
- React update timing: batching and stale closures are left out, and each handler is one sequential transition. Open's nested focus call is modelled by its net effect: the level comes from the counter as it was before the call, and the counter is bumped twice. A title-bar press calls focus twice in one event (SpatialWindow.tsx lines 69 and 103). On the page both calls read the same counter, so the window gets level maxZ + 1 and the counter ends at maxZ + 2. `Registry.ApplyAll` of the two focus commands applies them one after the other, so it gives level maxZ + 2 with the same counter.
- Fractional coordinates: pointer and window coordinates are integers here, while the page may deliver fractional pointer coordinates. The card's half-height offset is a `real`, since the page divides without rounding.
- Tour target ids: `TourStep.targetId` is a string in the source and an `Option<AppId>` here. A string naming no application never matches a window, so it behaves like `None`.
- Input adapters: dock clicks and desktop-icon double-clicks call `Registry.Open` directly and are not separate members. The right-click menu's items are the strings handled by `Registry.ContextAction`.
- Applications: the file manager, settings, notes, gallery and protocol panels hold only local UI state and are not part of this model. The protocol panel's restart-tour button is `Tour.Start`.
- Cross-window gestures: every window's controller is modelled separately. No global arbiter exists in the source, so none is modelled.

=== FILE: browser.dfy ===
/** The web viewer's address handling: a normaliser that turns what the user
    typed into a URL, and a history list with a cursor that navigation
    truncates and extends and the back and forward buttons move. */
module Browser {

  const Https: string := "https://"
  const StartPage: string := Https + "en.wikipedia.org/wiki/Spatial_computing"
  const MainPage: string := Https + "en.wikipedia.org/wiki/Main_Page"
  const SearchPrefix: string := Https + "en.wikipedia.org/w/index.php?search="

  /** `url` is what the frame shows, `inputUrl` what the address bar holds.
      The loading indicator is not modelled. */
  datatype BrowserState = BrowserState(url: string, inputUrl: string, history: seq<string>, index: int)

  const Initial: BrowserState := BrowserState(StartPage, StartPage, [StartPage], 0)

  /** The history is never empty, the cursor is on one of its entries and the
      frame shows that entry. */
  predicate Valid(b: BrowserState) {
    |b.history| > 0 && 0 <= b.index < |b.history| && b.url == b.history[b.index]
  }

  predicate StartsWith(s: string, prefix: string) {
    |prefix| <= |s| && s[..|prefix|] == prefix
  }

  /** Typed text that already starts with "http" is kept; text that looks
      like a host name (has a dot, no space) gets "https://"; anything else
      becomes a search. `encode` stands for the page's URI-component encoder. */
  function Normalize(input: string, encode: string -> string): (r: string)
    ensures StartsWith(input, "http") ==> r == input
    ensures !StartsWith(input, "http") && '.' in input && ' ' !in input ==> r == Https + input
    ensures !StartsWith(input, "http") && ('.' !in input || ' ' in input) ==> r == SearchPrefix + encode(input)
    ensures StartsWith(r, "http")
  {
    if StartsWith(input, "http") then input
    else if '.' in input && ' ' !in input then HttpsIsHttp(input); Https + input
    else
      var search := SearchPrefix + encode(input);
      HttpsIsHttp("en.wikipedia.org/w/index.php?search=" + encode(input));
      assert search == Https + ("en.wikipedia.org/w/index.php?search=" + encode(input));
      search
  }

  lemma HttpsIsHttp(rest: string)
    ensures StartsWith(Https + rest, "http")
  {
  }

  predicate CanGoBack(b: BrowserState) {
    b.index > 0
  }

  predicate CanGoForward(b: BrowserState) {
    b.index < |b.history| - 1
  }

  /** The toolbar disables its back and forward buttons on these conditions. */
  predicate BackDisabled(b: BrowserState) {
    b.index == 0
  }

  predicate ForwardDisabled(b: BrowserState) {
    b.index == |b.history| - 1
  }

  /** Shows the normalised target, drops every entry after the cursor and
      appends the target as the new last entry. */
  function Navigate(b: BrowserState, typed: string, encode: string -> string): (r: BrowserState)
    requires Valid(b)
    ensures r.url == r.inputUrl == Normalize(typed, encode)
    ensures r.history == b.history[..b.index + 1] + [r.url]
    ensures r.index == b.index + 1
    ensures Valid(r) && CanGoBack(r) && !CanGoForward(r)
  {
    var target := Normalize(typed, encode);
    var kept := b.history[..b.index + 1];
    BrowserState(target, target, kept + [target], |kept + [target]| - 1)
  }

  /** One step back along the history, if there is one. */
  function GoBack(b: BrowserState): (r: BrowserState)
    requires Valid(b)
    ensures Valid(r) && r.history == b.history
    ensures CanGoBack(b) ==> r.index == b.index - 1 && r.inputUrl == r.url
    ensures !CanGoBack(b) ==> r == b
  {
    if b.index > 0 then
      var i := b.index - 1;
      b.(index := i, url := b.history[i], inputUrl := b.history[i])
    else b
  }

  /** One step forward along the history, if there is one. */
  function GoForward(b: BrowserState): (r: BrowserState)
    requires Valid(b)
    ensures Valid(r) && r.history == b.history
    ensures CanGoForward(b) ==> r.index == b.index + 1 && r.inputUrl == r.url
    ensures !CanGoForward(b) ==> r == b
  {
    if b.index < |b.history| - 1 then
      var i := b.index + 1;
      b.(index := i, url := b.history[i], inputUrl := b.history[i])
    else b
  }

  /** Typing in the address bar changes only its text. */
  function EditAddress(b: BrowserState, text: string): (r: BrowserState)
    ensures r.inputUrl == text
    ensures r.url == b.url && r.history == b.history && r.index == b.index
    ensures Valid(b) ==> Valid(r)
  {
    b.(inputUrl := text)
  }

  /** Submitting the address bar navigates to its text. */
  function Submit(b: BrowserState, encode: string -> string): (r: BrowserState)
    requires Valid(b)
    ensures r.url == r.inputUrl == Normalize(b.inputUrl, encode)
    ensures r.history == b.history[..b.index + 1] + [r.url]
    ensures r.index == b.index + 1
    ensures Valid(r) && CanGoBack(r) && !CanGoForward(r)
  {
    Navigate(b, b.inputUrl, encode)
  }

  /** The home button navigates to the encyclopedia's main page. */
  function Home(b: BrowserState, encode: string -> string): (r: BrowserState)
    requires Valid(b)
    ensures r.url == r.inputUrl == MainPage
    ensures r.history == b.history[..b.index + 1] + [MainPage]
    ensures r.index == b.index + 1
    ensures Valid(r) && CanGoBack(r) && !CanGoForward(r)
  {
    HttpsIsHttp("en.wikipedia.org/wiki/Main_Page");
    Navigate(b, MainPage, encode)
  }

  // ---------------------------------------------------------------------------
  // Properties

  lemma InitialValid()
    ensures Valid(Initial) && BackDisabled(Initial) && ForwardDisabled(Initial)
  {
  }

  /** Normalisation leaves exactly the addresses starting with "http" alone. */
  lemma NormalizeFixedPoints(input: string, encode: string -> string)
    ensures Normalize(input, encode) == input <==> StartsWith(input, "http")
  {
  }

  /** A normalised address is left alone by a second normalisation. */
  lemma NormalizeIdempotent(input: string, encode: string -> string)
    ensures Normalize(Normalize(input, encode), encode) == Normalize(input, encode)
  {
  }

  /** The disabled buttons are exactly the ones whose handler would do nothing. */
  lemma DisabledMeansNoOp(b: BrowserState)
    requires Valid(b)
    ensures BackDisabled(b) <==> !CanGoBack(b)
    ensures ForwardDisabled(b) <==> !CanGoForward(b)
    ensures BackDisabled(b) <==> GoBack(b) == b
    ensures ForwardDisabled(b) <==> GoForward(b) == b
  {
  }

  /** Back then forward returns to the same entry. */
  lemma BackThenForward(b: BrowserState)
    requires Valid(b) && CanGoBack(b)
    ensures var r := GoForward(GoBack(b));
      r.index == b.index && r.url == b.url && r.history == b.history
  {
  }

  /** Forward then back returns to the same entry. */
  lemma ForwardThenBack(b: BrowserState)
    requires Valid(b) && CanGoForward(b)
    ensures var r := GoBack(GoForward(b));
      r.index == b.index && r.url == b.url && r.history == b.history
  {
  }

  /** Navigating after going back forgets the entries that were ahead, so
      forward is disabled and back leads to where the cursor was. */
  lemma NavigateAfterBackDropsForward(b: BrowserState, typed: string, encode: string -> string)
    requires Valid(b) && CanGoBack(b)
    ensures var n := Navigate(GoBack(b), typed, encode);
      && |n.history| == b.index + 1
      && ForwardDisabled(n)
      && GoBack(n).url == b.history[b.index - 1]
  {
  }
}

=== FILE: geometry.dfy ===
/** The clamp the registry applies to every move: a window may leave the
    viewport, but at least `Margin` pixels of it stay reachable on the left,
    right and bottom edges, and its top edge never goes above the viewport. */
module Geometry {
  import opened Types

  /** Keeps this many pixels of a dragged window on screen. */
  const Margin: int := 50

  /** The browser window's inner size, read when a move is applied. */
  datatype Viewport = Viewport(width: int, height: int)

  function Min(a: int, b: int): int {
    if a <= b then a else b
  }

  function Max(a: int, b: int): int {
    if a >= b then a else b
  }

  function Dist(a: int, b: int): nat {
    if a >= b then a - b else b - a
  }

  /** Raise to `lo` after lowering to `hi`; when the interval is empty the
      lower bound wins. When it is not empty the result is the point of
      [lo, hi] nearest to v. */
  function Clamp(v: int, lo: int, hi: int): (r: int)
    ensures lo <= r
    ensures lo <= hi ==> r <= hi
    ensures lo <= v <= hi ==> r == v
    ensures hi < lo ==> r == lo
    ensures lo <= hi ==> forall u :: lo <= u <= hi ==> Dist(r, v) <= Dist(u, v)
  {
    Max(lo, Min(v, hi))
  }

  /** Smallest x that leaves `Margin` pixels of a window of this width visible. */
  function MinX(s: Size): int {
    Margin - s.width
  }

  function MaxX(vp: Viewport): int {
    vp.width - Margin
  }

  function MaxY(vp: Viewport): int {
    vp.height - Margin
  }

  predicate InBounds(p: Position, s: Size, vp: Viewport) {
    MinX(s) <= p.x <= MaxX(vp) && 0 <= p.y <= MaxY(vp)
  }

  /** The position a move actually stores: each coordinate is clamped on its
      own, x between `MinX` and `MaxX`, y between 0 and `MaxY`. */
  function ClampPosition(p: Position, s: Size, vp: Viewport): (r: Position)
    ensures r.x == Clamp(p.x, MinX(s), MaxX(vp)) && r.y == Clamp(p.y, 0, MaxY(vp))
    ensures r.x >= MinX(s) && r.y >= 0
    ensures MinX(s) <= MaxX(vp) ==> r.x <= MaxX(vp)
    ensures vp.height >= Margin ==> r.y <= MaxY(vp)
    ensures InBounds(p, s, vp) ==> r == p
    ensures MinX(s) <= MaxX(vp) && vp.height >= Margin ==> InBounds(r, s, vp)
  {
    Position(Clamp(p.x, MinX(s), MaxX(vp)), Clamp(p.y, 0, MaxY(vp)))
  }

  /** Clamping an already clamped position changes nothing, whether or not
      the viewport is large enough for the bounds to be consistent. */
  lemma ClampPositionIdempotent(p: Position, s: Size, vp: Viewport)
    ensures ClampPosition(ClampPosition(p, s, vp), s, vp) == ClampPosition(p, s, vp)
  {
  }
}

=== FILE: gesture.dfy ===
/** The pointer controller each window carries. It keeps two independent
    flags, dragging and resizing, with the values recorded when each gesture
    started, and turns pointer events into commands for the registry. Nothing
    stops both flags being set at once, and each window has its own
    controller, so nothing stops two windows gesturing at once either. */
module Gesture {
  import opened Types
  import opened Geometry
  import Registry

  /** Smallest size a resize gesture ever asks for. */
  const MinWidth: int := 300
  const MinHeight: int := 200

  datatype GestureState = GestureState(
    dragging: bool,
    resizing: bool,
    dragOffset: Position,
    startSize: Size,
    startPos: Position)

  /** No gesture, all recorded values zero. */
  const Idle: GestureState := GestureState(false, false, Position(0, 0), Size(0, 0), Position(0, 0))

  /** Presses land on one of the window's own parts; moves and releases are
      heard on the whole document. A press on the minimize or close button
      also reaches the title bar as a `TitleBarDown` before its click. */
  datatype Event =
    | TitleBarDown(p: Position)
    | HandleDown(p: Position)
    | BodyDown
    | MinimizeClick
    | CloseClick
    | PointerMove(p: Position)
    | PointerUp

  /** Events delivered to the window's own elements, which exist only while it is drawn. */
  predicate IsPress(e: Event) {
    !e.PointerMove? && !e.PointerUp?
  }

  datatype Reaction = Reaction(next: GestureState, emitted: seq<Command>)

  function Sub(a: Position, b: Position): Position {
    Position(a.x - b.x, a.y - b.y)
  }

  /** The size a resize asks for: the start size grown by the pointer's travel
      since the press, never below the minimum. The clauses together say each
      side is the larger of its minimum and start plus travel. */
  function ResizeTarget(g: GestureState, p: Position): (s: Size)
    ensures s.width >= MinWidth && s.height >= MinHeight
    ensures s.width >= g.startSize.width + (p.x - g.startPos.x)
    ensures s.height >= g.startSize.height + (p.y - g.startPos.y)
    ensures s.width == MinWidth || s.width - g.startSize.width == p.x - g.startPos.x
    ensures s.height == MinHeight || s.height - g.startSize.height == p.y - g.startPos.y
  {
    var delta := Sub(p, g.startPos);
    Size(Max(MinWidth, g.startSize.width + delta.x), Max(MinHeight, g.startSize.height + delta.y))
  }

  /** One event for the window whose current record is `w`. */
  function Step(g: GestureState, e: Event, w: WindowState): (r: Reaction)
    ensures forall c :: c in r.emitted ==> c.id == w.id
    ensures forall c :: c in r.emitted && c.ResizeCmd? ==> c.size.width >= MinWidth && c.size.height >= MinHeight
    ensures IsPress(e) && !w.Visible() ==> r == Reaction(g, [])
    ensures e.PointerUp? ==> !r.next.dragging && !r.next.resizing && r.emitted == []
    ensures !g.dragging && r.next.dragging ==> e.TitleBarDown? && w.Visible()
    ensures !g.resizing && r.next.resizing ==> e.HandleDown? && w.Visible()
    ensures e.PointerMove? && !g.dragging && !g.resizing ==> r.emitted == []
    ensures e.MinimizeClick? && w.Visible() ==> r == Reaction(g, [MinimizeCmd(w.id)])
    ensures e.CloseClick? && w.Visible() ==> r == Reaction(g, [CloseCmd(w.id)])
    ensures e.HandleDown? ==> r.next.dragging == g.dragging && r.next.dragOffset == g.dragOffset
    ensures e.TitleBarDown? ==>
      r.next.resizing == g.resizing && r.next.startPos == g.startPos && r.next.startSize == g.startSize
  {
    if IsPress(e) && !w.Visible() then Reaction(g, [])
    else match e
      case TitleBarDown(p) =>
        // the title bar's handler, then the window body's handler the press bubbles to
        Reaction(g.(dragging := true, dragOffset := Sub(p, w.position)), [FocusCmd(w.id), FocusCmd(w.id)])
      case HandleDown(p) =>
        // the handle stops the press from reaching the body
        Reaction(g.(resizing := true, startPos := p, startSize := w.size), [FocusCmd(w.id)])
      case BodyDown => Reaction(g, [FocusCmd(w.id)])
      case MinimizeClick => Reaction(g, [MinimizeCmd(w.id)])
      case CloseClick => Reaction(g, [CloseCmd(w.id)])
      case PointerMove(p) =>
        var moves := if g.dragging then [MoveCmd(w.id, Sub(p, g.dragOffset))] else [];
        var resizes := if g.resizing then [ResizeCmd(w.id, ResizeTarget(g, p))] else [];
        Reaction(g, moves + resizes)
      case PointerUp => Reaction(g.(dragging := false, resizing := false), [])
  }

  /** Runs events in order, collecting everything emitted. Every command of
      the run names this window. */
  function Run(g: GestureState, es: seq<Event>, w: WindowState): (r: Reaction)
    ensures forall c :: c in r.emitted ==> c.id == w.id
    ensures es == [] ==> r == Reaction(g, [])
    decreases |es|
  {
    if es == [] then Reaction(g, [])
    else
      var first := Step(g, es[0], w);
      var rest := Run(first.next, es[1..], w);
      Reaction(rest.next, first.emitted + rest.emitted)
  }

  // ---------------------------------------------------------------------------
  // Properties

  /** A title-bar press focuses the window twice and starts a drag; a move to
      the press point then asks for the window's current position, so the
      window does not jump. Focusing in between changes nothing that matters. */
  lemma DragStartDoesNotJump(g: GestureState, w: WindowState, w': WindowState, p: Position)
    requires w.Visible() && !g.resizing
    requires w'.id == w.id
    ensures var r := Step(g, TitleBarDown(p), w);
      && r.emitted == [FocusCmd(w.id), FocusCmd(w.id)]
      && r.next.dragging
      && Step(r.next, PointerMove(p), w').emitted == [MoveCmd(w.id, w.position)]
  {
  }

  /** While only dragging, every move asks for exactly one position: the
      pointer less the offset recorded at the press. */
  lemma DragFollowsPointer(g: GestureState, w: WindowState, p: Position)
    requires g.dragging && !g.resizing
    ensures var r := Step(g, PointerMove(p), w);
      && r.next == g
      && |r.emitted| == 1 && r.emitted[0].MoveCmd?
      && r.emitted[0].pos.x + g.dragOffset.x == p.x
      && r.emitted[0].pos.y + g.dragOffset.y == p.y
  {
  }

  /** A resize is measured from the press, not accumulated: the size asked for
      depends on the recorded start values and the pointer only, never on the
      window's current size. */
  lemma ResizeIsRelativeToStart(g: GestureState, p: Position, w1: WindowState, w2: WindowState)
    requires g.resizing && w1.id == w2.id
    ensures Step(g, PointerMove(p), w1) == Step(g, PointerMove(p), w2)
  {
  }

  /** While only resizing, every move asks for exactly one size: the one
      `ResizeTarget` computes from the recorded start and the pointer. */
  lemma ResizeFollowsPointer(g: GestureState, w: WindowState, p: Position)
    requires g.resizing && !g.dragging
    ensures Step(g, PointerMove(p), w) == Reaction(g, [ResizeCmd(w.id, ResizeTarget(g, p))])
  {
  }

  /** With both flags set, one move asks first for the dragged position and
      then for the resized size. */
  lemma DragAndResizeMove(g: GestureState, w: WindowState, p: Position)
    requires g.resizing && g.dragging
    ensures Step(g, PointerMove(p), w) ==
      Reaction(g, [MoveCmd(w.id, Sub(p, g.dragOffset)), ResizeCmd(w.id, ResizeTarget(g, p))])
  {
  }

  /** Bringing the pointer back to where the resize began asks for the start
      size again, when the start size already meets the minimum. */
  lemma ResizeBackToStart(g: GestureState, w: WindowState)
    requires g.resizing && !g.dragging
    requires g.startSize.width >= MinWidth && g.startSize.height >= MinHeight
    ensures Step(g, PointerMove(g.startPos), w).emitted == [ResizeCmd(w.id, g.startSize)]
  {
  }

  /** A handle press focuses once and records the pointer and the window's size. */
  lemma HandlePressRecordsStart(g: GestureState, w: WindowState, p: Position)
    requires w.Visible()
    ensures var r := Step(g, HandleDown(p), w);
      r.emitted == [FocusCmd(w.id)] && r.next.resizing && r.next.startPos == p && r.next.startSize == w.size
  {
  }

  /** A press on the body focuses and starts nothing. */
  lemma BodyPressOnlyFocuses(g: GestureState, w: WindowState)
    requires w.Visible()
    ensures Step(g, BodyDown, w) == Reaction(g, [FocusCmd(w.id)])
  {
  }

  /** The title-bar buttons ask the registry to minimize or close this window
      and start no gesture. */
  lemma TitleBarButtons(g: GestureState, w: WindowState)
    requires w.Visible()
    ensures Step(g, MinimizeClick, w) == Reaction(g, [MinimizeCmd(w.id)])
    ensures Step(g, CloseClick, w) == Reaction(g, [CloseCmd(w.id)])
  {
  }

  /** After a release, moving the pointer anywhere emits nothing. */
  lemma ReleaseEndsGesture(g: GestureState, w: WindowState, p: Position)
    ensures var up := Step(g, PointerUp, w);
      Step(up.next, PointerMove(p), w).emitted == []
  {
  }

  /** Nothing guards the two flags against each other: a handle press followed
      by a title-bar press leaves both set, and one move then asks the
      registry to move and to resize the window. */
  lemma DragAndResizeAtOnce(w: WindowState, a: Position, b: Position, p: Position)
    requires w.Visible()
    ensures var r := Run(Idle, [HandleDown(a), TitleBarDown(b), PointerMove(p)], w);
      && r.next.dragging && r.next.resizing
      && |r.emitted| == 5
      && r.emitted[3].MoveCmd? && r.emitted[4].ResizeCmd?
  {
    var s1 := Step(Idle, HandleDown(a), w);
    var s2 := Step(s1.next, TitleBarDown(b), w);
    var s3 := Step(s2.next, PointerMove(p), w);
    assert [HandleDown(a), TitleBarDown(b), PointerMove(p)][1..] == [TitleBarDown(b), PointerMove(p)];
    assert [TitleBarDown(b), PointerMove(p)][1..] == [PointerMove(p)];
    assert Run(s2.next, [PointerMove(p)], w) == Reaction(s3.next, s3.emitted + []);
  }

  /** Whatever happened before, every size the controller ever asks for meets the minimum. */
  lemma {:induction false} RunResizesMeetMinimum(g: GestureState, es: seq<Event>, w: WindowState)
    ensures forall c :: c in Run(g, es, w).emitted && c.ResizeCmd? ==>
              c.size.width >= MinWidth && c.size.height >= MinHeight
    decreases |es|
  {
    if es != [] {
      RunResizesMeetMinimum(Step(g, es[0], w).next, es[1..], w);
    }
  }

  /** A run of one event is that event's step. */
  lemma RunSingle(g: GestureState, e: Event, w: WindowState)
    ensures Run(g, [e], w) == Step(g, e, w)
  {
  }

  /** Running two batches of events one after the other is running them
      together: the controller carries its state across and the commands are
      concatenated. */
  lemma {:induction false} RunSplit(g: GestureState, a: seq<Event>, b: seq<Event>, w: WindowState)
    ensures var first := Run(g, a, w);
      var second := Run(first.next, b, w);
      Run(g, a + b, w) == Reaction(second.next, first.emitted + second.emitted)
    decreases |a|
  {
    if a == [] {
      assert [] + b == b;
    } else {
      var s := Step(g, a[0], w);
      assert (a + b)[0] == a[0];
      assert (a + b)[1..] == a[1..] + b;
      RunSplit(s.next, a[1..], b, w);
    }
  }

  /** A drag move, once the registry applies it, leaves the window inside the
      clamp bounds: never above the viewport, never further left than keeps
      `Margin` pixels of it visible. */
  lemma DraggedWindowStaysReachable(d: Registry.Desktop, g: GestureState, w: WindowState, p: Position, vp: Viewport)
    requires g.dragging && !g.resizing
    ensures var after := Registry.ApplyAll(d, Step(g, PointerMove(p), w).emitted, vp);
      |after.windows| == |d.windows| &&
      forall i :: 0 <= i < |d.windows| && d.windows[i].id == w.id ==>
        after.windows[i].position.x >= MinX(d.windows[i].size) && after.windows[i].position.y >= 0
  {
  }
}

=== FILE: registry.dfy ===
/** The window registry of the desktop environment: the fixed sequence of
    window records, the active window, the global stacking counter and the
    context-menu anchor, with the handlers that update them. Each handler is
    one sequential transition of the whole desktop. */
module Registry {
  import opened Types
  import opened Geometry

  /** The stacking counter's value when the desktop mounts. */
  const InitialMaxZ: int := 20

  datatype Desktop = Desktop(
    windows: seq<WindowState>,
    activeId: Option<AppId>,
    maxZ: int,
    menu: Option<Position>)

  const InitialWindows: seq<WindowState> := [
    WindowState(BillSystem, "BILL Protocol", true, false, 10, Position(80, 60), Size(500, 600)),
    WindowState(WebBrowser, "Spatial Web", false, false, 11, Position(150, 80), Size(900, 650)),
    WindowState(FileManager, "Files", false, false, 12, Position(200, 120), Size(800, 500)),
    WindowState(SpatialGallery, "Spatial Memories", false, false, 13, Position(600, 150), Size(640, 480)),
    WindowState(Notes, "Thoughts", false, false, 14, Position(700, 100), Size(400, 500)),
    WindowState(SystemMonitor, "Shape Monitor", false, false, 15, Position(900, 50), Size(320, 380)),
    WindowState(Settings, "Environment", false, false, 16, Position(400, 200), Size(420, 550))
  ]

  /** Only the protocol window is open and it is active; no context menu. */
  const Initial: Desktop := Desktop(InitialWindows, Some(BillSystem), InitialMaxZ, None)

  // ---------------------------------------------------------------------------
  // The registry invariant

  predicate DistinctIds(ws: seq<WindowState>) {
    forall i, j :: 0 <= i < j < |ws| ==> ws[i].id != ws[j].id
  }

  predicate DistinctZ(ws: seq<WindowState>) {
    forall i, j :: 0 <= i < j < |ws| ==> ws[i].zIndex != ws[j].zIndex
  }

  predicate BelowCounter(ws: seq<WindowState>, maxZ: int) {
    forall i :: 0 <= i < |ws| ==> ws[i].zIndex <= maxZ
  }

  /** One record per application, no two windows share a stacking level, and
      the counter is at least every window's level, so the next level handed
      out is above all of them. */
  predicate Wf(d: Desktop) {
    DistinctIds(d.windows) && DistinctZ(d.windows) && BelowCounter(d.windows, d.maxZ)
  }

  /** Windows with another id are exactly as they were. */
  predicate OthersUnchanged(ws: seq<WindowState>, ws': seq<WindowState>, id: AppId) {
    |ws'| == |ws| && forall i :: 0 <= i < |ws| && ws[i].id != id ==> ws'[i] == ws[i]
  }

  /** Every window keeps its identity, position and size. */
  predicate GeometryKept(ws: seq<WindowState>, ws': seq<WindowState>) {
    |ws'| == |ws|
    && forall i :: 0 <= i < |ws| ==>
         ws'[i].id == ws[i].id && ws'[i].position == ws[i].position && ws'[i].size == ws[i].size
  }

  /** Every window keeps its stacking level. */
  predicate LevelsKept(ws: seq<WindowState>, ws': seq<WindowState>) {
    |ws'| == |ws| && forall i :: 0 <= i < |ws| ==> ws'[i].id == ws[i].id && ws'[i].zIndex == ws[i].zIndex
  }

  // ---------------------------------------------------------------------------
  // Handlers

  /** Rewrites every window carrying `id` with `f`, in order, leaving the rest. */
  function UpdateWhere(ws: seq<WindowState>, id: AppId, f: WindowState -> WindowState): (r: seq<WindowState>)
    ensures OthersUnchanged(ws, r, id)
    ensures forall i :: 0 <= i < |ws| && ws[i].id == id ==> r[i] == f(ws[i])
  {
    if ws == [] then []
    else [if ws[0].id == id then f(ws[0]) else ws[0]] + UpdateWhere(ws[1..], id, f)
  }

  /** Number of windows carrying `id` that are currently visible. Opening such
      a window focuses it once per match, and each focus bumps the counter. */
  function CountVisible(ws: seq<WindowState>, id: AppId): nat {
    if ws == [] then 0
    else (if ws[0].id == id && ws[0].Visible() then 1 else 0) + CountVisible(ws[1..], id)
  }

  /** Pointer-down on a window: it takes the next stacking level and becomes active. */
  function Focus(d: Desktop, id: AppId): (r: Desktop)
    ensures r.activeId == Some(id) && r.maxZ == d.maxZ + 1 && r.menu == d.menu
    ensures OthersUnchanged(d.windows, r.windows, id) && GeometryKept(d.windows, r.windows)
    ensures forall i :: 0 <= i < |d.windows| && d.windows[i].id == id ==>
              r.windows[i] == d.windows[i].(zIndex := r.maxZ)
  {
    d.(windows := UpdateWhere(d.windows, id, (w: WindowState) => w.(zIndex := d.maxZ + 1)),
       activeId := Some(id),
       maxZ := d.maxZ + 1)
  }

  /** Dock click, desktop icon or menu entry. A visible window is focused
      (level taken from the counter as it was before the call) and the
      counter is bumped a second time; any other window is shown, put on the
      next level and made active. Position and size are never touched. */
  function Open(d: Desktop, id: AppId): (r: Desktop)
    ensures r.activeId == Some(id) && r.menu == d.menu
    ensures r.maxZ == d.maxZ + 1 + CountVisible(d.windows, id)
    ensures OthersUnchanged(d.windows, r.windows, id) && GeometryKept(d.windows, r.windows)
    ensures forall i :: 0 <= i < |d.windows| && d.windows[i].id == id ==>
              r.windows[i] == d.windows[i].(isOpen := true, isMinimized := false, zIndex := d.maxZ + 1)
  {
    var shown := UpdateWhere(d.windows, id, (w: WindowState) =>
      if w.Visible() then w.(zIndex := d.maxZ + 1)
      else w.(isOpen := true, isMinimized := false, zIndex := d.maxZ + 1));
    d.(windows := shown,
       activeId := Some(id),
       maxZ := d.maxZ + 1 + CountVisible(d.windows, id))
  }

  /** Title-bar close button: hides the window, keeping everything else. */
  function Close(d: Desktop, id: AppId): (r: Desktop)
    ensures r.maxZ == d.maxZ && r.menu == d.menu
    ensures OthersUnchanged(d.windows, r.windows, id)
    ensures GeometryKept(d.windows, r.windows) && LevelsKept(d.windows, r.windows)
    ensures forall i :: 0 <= i < |d.windows| && d.windows[i].id == id ==>
              !r.windows[i].isOpen && r.windows[i] == d.windows[i].(isOpen := false)
    ensures d.activeId == Some(id) ==> r.activeId == None
    ensures d.activeId != Some(id) ==> r.activeId == d.activeId
  {
    d.(windows := UpdateWhere(d.windows, id, (w: WindowState) => w.(isOpen := false)),
       activeId := if d.activeId == Some(id) then None else d.activeId)
  }

  /** Title-bar minimize button: the window stays open but is no longer drawn. */
  function Minimize(d: Desktop, id: AppId): (r: Desktop)
    ensures r.maxZ == d.maxZ && r.menu == d.menu
    ensures OthersUnchanged(d.windows, r.windows, id)
    ensures GeometryKept(d.windows, r.windows) && LevelsKept(d.windows, r.windows)
    ensures forall i :: 0 <= i < |d.windows| && d.windows[i].id == id ==>
              r.windows[i].isMinimized && r.windows[i] == d.windows[i].(isMinimized := true)
    ensures d.activeId == Some(id) ==> r.activeId == None
    ensures d.activeId != Some(id) ==> r.activeId == d.activeId
  {
    d.(windows := UpdateWhere(d.windows, id, (w: WindowState) => w.(isMinimized := true)),
       activeId := if d.activeId == Some(id) then None else d.activeId)
  }

  /** Drag output: stores the requested position clamped against the window's
      own size and the viewport; nothing else changes. */
  function Move(d: Desktop, id: AppId, pos: Position, vp: Viewport): (r: Desktop)
    ensures r.activeId == d.activeId && r.maxZ == d.maxZ && r.menu == d.menu
    ensures OthersUnchanged(d.windows, r.windows, id) && LevelsKept(d.windows, r.windows)
    ensures forall i :: 0 <= i < |d.windows| && d.windows[i].id == id ==>
              && r.windows[i] == d.windows[i].(position := r.windows[i].position)
              && r.windows[i].position == ClampPosition(pos, d.windows[i].size, vp)
              && r.windows[i].position.x >= MinX(d.windows[i].size)
              && r.windows[i].position.y >= 0
              && (MinX(d.windows[i].size) <= MaxX(vp) ==> r.windows[i].position.x <= MaxX(vp))
              && (vp.height >= Margin ==> r.windows[i].position.y <= MaxY(vp))
              && (InBounds(pos, d.windows[i].size, vp) ==> r.windows[i].position == pos)
  {
    d.(windows := UpdateWhere(d.windows, id, (w: WindowState) => w.(position := ClampPosition(pos, w.size, vp))))
  }

  /** Resize output: stores the size exactly as given. The 300 by 200 minimum
      is applied by the window's gesture controller, not here. */
  function Resize(d: Desktop, id: AppId, size: Size): (r: Desktop)
    ensures r.activeId == d.activeId && r.maxZ == d.maxZ && r.menu == d.menu
    ensures OthersUnchanged(d.windows, r.windows, id) && LevelsKept(d.windows, r.windows)
    ensures forall i :: 0 <= i < |d.windows| && d.windows[i].id == id ==>
              r.windows[i].size == size && r.windows[i] == d.windows[i].(size := size)
  {
    d.(windows := UpdateWhere(d.windows, id, (w: WindowState) => w.(size := size)))
  }

  /** Every window keeps its identity and place in the sequence. */
  predicate SameSlots(ws: seq<WindowState>, ws': seq<WindowState>) {
    |ws'| == |ws| && forall i :: 0 <= i < |ws| ==> ws'[i].id == ws[i].id
  }

  /** Runs one command from a window's callbacks. Only the window the command
      names changes; no window is ever added, removed or renamed. */
  function Apply(d: Desktop, c: Command, vp: Viewport): (r: Desktop)
    ensures SameSlots(d.windows, r.windows)
    ensures OthersUnchanged(d.windows, r.windows, c.id)
    ensures r.menu == d.menu
    ensures c.FocusCmd? ==> r == Focus(d, c.id)
    ensures c.MoveCmd? ==> r == Move(d, c.id, c.pos, vp)
    ensures c.ResizeCmd? ==> r == Resize(d, c.id, c.size)
    ensures c.MinimizeCmd? ==> r == Minimize(d, c.id)
    ensures c.CloseCmd? ==> r == Close(d, c.id)
  {
    match c
    case FocusCmd(id) => Focus(d, id)
    case MoveCmd(id, pos) => Move(d, id, pos, vp)
    case ResizeCmd(id, size) => Resize(d, id, size)
    case MinimizeCmd(id) => Minimize(d, id)
    case CloseCmd(id) => Close(d, id)
  }

  /** Runs commands in the order they were emitted. */
  function ApplyAll(d: Desktop, cs: seq<Command>, vp: Viewport): (r: Desktop)
    ensures SameSlots(d.windows, r.windows)
    ensures r.menu == d.menu
    ensures forall i :: 0 <= i < |d.windows| && (forall c :: c in cs ==> c.id != d.windows[i].id) ==>
              r.windows[i] == d.windows[i]
    decreases |cs|
  {
    if cs == [] then d else ApplyAll(Apply(d, cs[0], vp), cs[1..], vp)
  }

  /** Running a batch and then one more command is running the longer batch:
      commands take effect one at a time, in the order they were emitted. */
  lemma {:induction false} ApplyAllSnoc(d: Desktop, cs: seq<Command>, c: Command, vp: Viewport)
    ensures ApplyAll(d, cs + [c], vp) == Apply(ApplyAll(d, cs, vp), c, vp)
    decreases |cs|
  {
    if cs == [] {
      assert [] + [c] == [c];
      assert [c][1..] == [];
    } else {
      assert (cs + [c])[0] == cs[0];
      assert (cs + [c])[1..] == cs[1..] + [c];
      ApplyAllSnoc(Apply(d, cs[0], vp), cs[1..], c, vp);
    }
  }

  /** A batch of one command is that command. */
  lemma ApplyAllSingle(d: Desktop, c: Command, vp: Viewport)
    ensures ApplyAll(d, [c], vp) == Apply(d, c, vp)
  {
  }

  // ---------------------------------------------------------------------------
  // Context menu and dock

  /** A right-click anywhere on the desktop, windows and dock included, opens
      the menu at the pointer. */
  function OpenMenu(d: Desktop, at: Position): (r: Desktop)
    ensures r.menu == Some(at)
    ensures r.windows == d.windows && r.activeId == d.activeId && r.maxZ == d.maxZ
  {
    d.(menu := Some(at))
  }

  /** A click anywhere outside the menu dismisses it. */
  function DismissMenu(d: Desktop): (r: Desktop)
    ensures r.menu == None
    ensures r.windows == d.windows && r.activeId == d.activeId && r.maxZ == d.maxZ
  {
    d.(menu := None)
  }

  /** A menu entry: the menu closes, "settings" opens the settings window,
      "new_folder" opens the file manager; "display" shows a browser alert and
      every other entry does nothing to the desktop. */
  function ContextAction(d: Desktop, action: string): (r: Desktop)
    ensures r.menu == None
    ensures action == "settings" ==> r == Open(d, Settings).(menu := None)
    ensures action == "new_folder" ==> r == Open(d, FileManager).(menu := None)
    ensures action != "settings" && action != "new_folder" ==> r == d.(menu := None)
  {
    var closed := d.(menu := None);
    if action == "settings" then Open(closed, Settings)
    else if action == "new_folder" then Open(closed, FileManager)
    else closed
  }

  /** Dock indicators: a dot while open, a highlight while visible, a ring on the active app. */
  predicate DockShowsDot(w: WindowState) {
    w.isOpen
  }

  /** Only a running app can be highlighted. */
  predicate DockHighlights(w: WindowState): (lit: bool)
    ensures lit ==> DockShowsDot(w)
  {
    w.Visible()
  }

  predicate DockRings(d: Desktop, id: AppId) {
    d.activeId == Some(id)
  }

  // ---------------------------------------------------------------------------
  // Properties

  lemma InitialWf()
    ensures Wf(Initial)
    ensures forall i :: 0 <= i < |Initial.windows| ==> Initial.windows[i].zIndex < Initial.maxZ
  {
  }

  lemma {:induction false} CountVisibleAtMostOne(ws: seq<WindowState>, id: AppId)
    requires DistinctIds(ws)
    ensures CountVisible(ws, id) <= 1
    ensures CountVisible(ws, id) == 1 <==> exists i :: 0 <= i < |ws| && ws[i].id == id && ws[i].Visible()
  {
    if ws != [] {
      assert DistinctIds(ws[1..]) by {
        forall i, j | 0 <= i < j < |ws[1..]| ensures ws[1..][i].id != ws[1..][j].id {
          assert ws[1..][i] == ws[i + 1] && ws[1..][j] == ws[j + 1];
        }
      }
      CountVisibleAtMostOne(ws[1..], id);
      if exists i :: 0 <= i < |ws| && ws[i].id == id && ws[i].Visible() {
        var i :| 0 <= i < |ws| && ws[i].id == id && ws[i].Visible();
        if i > 0 {
          assert ws[1..][i - 1] == ws[i];
        }
      }
      if exists i :: 0 <= i < |ws[1..]| && ws[1..][i].id == id && ws[1..][i].Visible() {
        var i :| 0 <= i < |ws[1..]| && ws[1..][i].id == id && ws[1..][i].Visible();
        assert ws[i + 1] == ws[1..][i];
      }
    }
  }

  /** A rewrite of window levels that puts the matching windows on `z`, above
      the old counter, keeps the registry invariant. */
  lemma RaiseKeepsWf(d: Desktop, r: Desktop, id: AppId)
    requires Wf(d)
    requires r.maxZ == d.maxZ + 1
    requires OthersUnchanged(d.windows, r.windows, id)
    requires forall i :: 0 <= i < |d.windows| ==> r.windows[i].id == d.windows[i].id
    requires forall i :: 0 <= i < |d.windows| && d.windows[i].id == id ==> r.windows[i].zIndex == r.maxZ
    ensures Wf(r)
  {
  }

  lemma FocusKeepsWf(d: Desktop, id: AppId)
    requires Wf(d)
    ensures Wf(Focus(d, id))
  {
    RaiseKeepsWf(d, Focus(d, id), id);
  }

  /** The focused window is strictly above every other window. */
  lemma FocusPutsOnTop(d: Desktop, id: AppId, k: int)
    requires Wf(d) && 0 <= k < |d.windows| && d.windows[k].id == id
    ensures var r := Focus(d, id);
      forall i :: 0 <= i < |r.windows| && i != k ==> r.windows[i].zIndex < r.windows[k].zIndex
  {
    var r := Focus(d, id);
    forall i | 0 <= i < |r.windows| && i != k
      ensures r.windows[i].zIndex < r.windows[k].zIndex
    {
      if i < k {
        assert d.windows[i].id != d.windows[k].id;
      } else {
        assert d.windows[k].id != d.windows[i].id;
      }
    }
  }

  /** Focusing a and then another window b leaves b above a: successive
      focuses hand out strictly increasing levels. */
  lemma FocusSequenceIncreases(d: Desktop, a: int, b: int)
    requires Wf(d) && 0 <= a < |d.windows| && 0 <= b < |d.windows| && a != b
    ensures var d1 := Focus(d, d.windows[a].id);
      var d2 := Focus(d1, d.windows[b].id);
      d.windows[a].zIndex < d1.windows[a].zIndex < d2.windows[b].zIndex
  {
    var d1 := Focus(d, d.windows[a].id);
    FocusKeepsWf(d, d.windows[a].id);
    FocusPutsOnTop(d1, d.windows[b].id, b);
    if a < b {
      assert d.windows[a].id != d.windows[b].id;
    } else {
      assert d.windows[b].id != d.windows[a].id;
    }
  }

  lemma OpenKeepsWf(d: Desktop, id: AppId)
    requires Wf(d)
    ensures Wf(Open(d, id))
  {
    var r := Open(d, id);
    CountVisibleAtMostOne(d.windows, id);
    if CountVisible(d.windows, id) == 0 {
      RaiseKeepsWf(d, r, id);
    } else {
      RaiseKeepsWf(d, r.(maxZ := d.maxZ + 1), id);
    }
  }

  /** The opened window ends up visible and strictly above every other window. */
  lemma OpenPutsOnTop(d: Desktop, id: AppId, k: int)
    requires Wf(d) && 0 <= k < |d.windows| && d.windows[k].id == id
    ensures var r := Open(d, id);
      && r.windows[k].Visible()
      && r.windows[k].zIndex <= r.maxZ
      && forall i :: 0 <= i < |r.windows| && i != k ==> r.windows[i].zIndex < r.windows[k].zIndex
  {
    var r := Open(d, id);
    forall i | 0 <= i < |r.windows| && i != k
      ensures r.windows[i].zIndex < r.windows[k].zIndex
    {
      if i < k {
        assert d.windows[i].id != d.windows[k].id;
      } else {
        assert d.windows[k].id != d.windows[i].id;
      }
    }
  }

  /** Opening a window that is already visible is focusing it, except that
      the counter advances twice. */
  lemma OpenVisibleIsFocus(d: Desktop, id: AppId, k: int)
    requires Wf(d) && 0 <= k < |d.windows| && d.windows[k].id == id && d.windows[k].Visible()
    ensures Open(d, id) == Focus(d, id).(maxZ := d.maxZ + 2)
    ensures Open(d, id).windows[k].isOpen == d.windows[k].isOpen
    ensures Open(d, id).windows[k].isMinimized == d.windows[k].isMinimized
  {
    CountVisibleAtMostOne(d.windows, id);
    var r := Open(d, id);
    var f := Focus(d, id);
    assert r.windows == f.windows;
  }

  /** Opening a closed or minimized window advances the counter once. */
  lemma OpenHiddenCountsOnce(d: Desktop, id: AppId, k: int)
    requires Wf(d) && 0 <= k < |d.windows| && d.windows[k].id == id && !d.windows[k].Visible()
    ensures Open(d, id).maxZ == d.maxZ + 1
    ensures Open(d, id).windows[k].Visible()
  {
    CountVisibleAtMostOne(d.windows, id);
  }

  /** Closing and reopening restores the window where it was and as large as it was. */
  lemma CloseThenOpenRestoresGeometry(d: Desktop, id: AppId)
    ensures var r := Open(Close(d, id), id);
      && GeometryKept(d.windows, r.windows)
      && forall i :: 0 <= i < |d.windows| && d.windows[i].id == id ==> r.windows[i].Visible()
  {
  }

  lemma CloseKeepsWf(d: Desktop, id: AppId)
    requires Wf(d)
    ensures Wf(Close(d, id))
  {
  }

  lemma MinimizeKeepsWf(d: Desktop, id: AppId)
    requires Wf(d)
    ensures Wf(Minimize(d, id))
  {
  }

  lemma MoveKeepsWf(d: Desktop, id: AppId, pos: Position, vp: Viewport)
    requires Wf(d)
    ensures Wf(Move(d, id, pos, vp))
  {
  }

  lemma ResizeKeepsWf(d: Desktop, id: AppId, size: Size)
    requires Wf(d)
    ensures Wf(Resize(d, id, size))
  {
  }

  /** Repeating a move with the same target changes nothing more. */
  lemma MoveIdempotent(d: Desktop, id: AppId, pos: Position, vp: Viewport)
    ensures Move(Move(d, id, pos, vp), id, pos, vp) == Move(d, id, pos, vp)
  {
    var m := Move(d, id, pos, vp);
    var m2 := Move(m, id, pos, vp);
    forall i | 0 <= i < |d.windows| && d.windows[i].id == id
      ensures m2.windows[i] == m.windows[i]
    {
      ClampPositionIdempotent(pos, d.windows[i].size, vp);
    }
    assert m2.windows == m.windows;
  }

  lemma ApplyKeepsWf(d: Desktop, c: Command, vp: Viewport)
    requires Wf(d)
    ensures Wf(Apply(d, c, vp))
  {
    match c
    case FocusCmd(id) => FocusKeepsWf(d, id);
    case MoveCmd(id, pos) => MoveKeepsWf(d, id, pos, vp);
    case ResizeCmd(id, size) => ResizeKeepsWf(d, id, size);
    case MinimizeCmd(id) => MinimizeKeepsWf(d, id);
    case CloseCmd(id) => CloseKeepsWf(d, id);
  }

  lemma {:induction false} ApplyAllKeepsWf(d: Desktop, cs: seq<Command>, vp: Viewport)
    requires Wf(d)
    ensures Wf(ApplyAll(d, cs, vp))
    decreases |cs|
  {
    if cs != [] {
      ApplyKeepsWf(d, cs[0], vp);
      ApplyAllKeepsWf(Apply(d, cs[0], vp), cs[1..], vp);
    }
  }

  lemma ContextActionKeepsWf(d: Desktop, action: string)
    requires Wf(d)
    ensures Wf(ContextAction(d, action))
  {
    OpenKeepsWf(d.(menu := None), Settings);
    OpenKeepsWf(d.(menu := None), FileManager);
  }

  /** After opening, the dock shows the window running, highlighted and ringed;
      after minimizing it keeps the running dot but loses highlight and ring. */
  lemma DockAfterOpenAndMinimize(d: Desktop, id: AppId, k: int)
    requires 0 <= k < |d.windows| && d.windows[k].id == id
    ensures var o := Open(d, id);
      DockShowsDot(o.windows[k]) && DockHighlights(o.windows[k]) && DockRings(o, id)
    ensures var m := Minimize(Open(d, id), id);
      DockShowsDot(m.windows[k]) && !DockHighlights(m.windows[k]) && !DockRings(m, id)
  {
  }
}

=== FILE: tour.dfy ===
/** The onboarding tour of the desktop environment: a fixed list of steps and
    a counter over it, -1 meaning no tour is showing, plus the persisted
    "tour completed" flag, held here as a boolean. */
module Tour {
  import opened Types

  const Steps: seq<TourStep> := [
    TourStep(Center, "System Initialization",
      "Welcome to BILL Spatial OS. This is a full desktop environment with file management, web browsing, and spatial apps.",
      None),
    TourStep(Dock, "Object Dock",
      "Launch your applications here. We've added a File Manager and a full Web Browser.",
      None),
    TourStep(Center, "Desktop Interaction",
      "You can right-click on the wallpaper to access system context menus, or double-click icons to launch apps.",
      None)
  ]

  /** `index` is -1 while no tour is shown; `completed` mirrors the stored flag. */
  datatype TourState = TourState(index: int, completed: bool)

  predicate Active(t: TourState) {
    t.index >= 0
  }

  /** The index names a step or is -1. */
  predicate Valid(t: TourState) {
    -1 <= t.index < |Steps|
  }

  /** The state right after mount, given whether the flag was already stored. */
  function Mount(storedCompleted: bool): (t: TourState)
    ensures Valid(t) && !Active(t) && t.completed == storedCompleted
  {
    TourState(-1, storedCompleted)
  }

  /** The delayed auto-start firing, or the protocol window's restart button:
      both show the first step and leave the flag alone. */
  function Start(t: TourState): (r: TourState)
    ensures Valid(r) && Active(r) && r.index == 0 && r.completed == t.completed
  {
    t.(index := 0)
  }

  /** "Next": the following step if there is one, otherwise the tour ends and
      the completed flag is stored. */
  function Next(t: TourState): (r: TourState)
    ensures t.index + 1 < |Steps| ==> r.index == t.index + 1 && r.completed == t.completed
    ensures t.index + 1 >= |Steps| ==> r.index == -1 && r.completed
    ensures Valid(t) ==> Valid(r)
  {
    var nextStep := t.index + 1;
    if nextStep >= |Steps| then TourState(-1, true) else t.(index := nextStep)
  }

  /** "Skip", the backdrop or the close button: the tour ends from any state
      and the completed flag is stored. */
  function Skip(t: TourState): (r: TourState)
    ensures Valid(r) && !Active(r) && r.completed
  {
    TourState(-1, true)
  }

  /** The step shown for this state, if the index names one. */
  function CurrentStep(t: TourState): (s: Option<TourStep>)
    ensures s.Some? <==> 0 <= t.index < |Steps|
    ensures s.Some? ==> s.value == Steps[t.index]
  {
    if 0 <= t.index < |Steps| then Some(Steps[t.index]) else None
  }

  /** The first window whose id equals the wanted id; windows are found
      whether or not they are open. */
  function FindWindow(ws: seq<WindowState>, wanted: Option<AppId>): (r: Option<WindowState>)
    ensures r.Some? <==> exists i :: 0 <= i < |ws| && wanted == Some(ws[i].id)
    ensures r.Some? ==> wanted == Some(r.value.id)
    ensures r.Some? ==>
      exists i :: 0 <= i < |ws| && ws[i] == r.value && forall j :: 0 <= j < i ==> wanted != Some(ws[j].id)
  {
    if ws == [] then None
    else if wanted == Some(ws[0].id) then Some(ws[0])
    else
      var r := FindWindow(ws[1..], wanted);
      assert forall i :: 0 < i < |ws| ==> ws[1..][i - 1] == ws[i];
      r
  }

  /** The window the current step points at, looked up by the step's target id. */
  function TargetWindow(ws: seq<WindowState>, t: TourState): (r: Option<WindowState>)
    ensures r.Some? ==> CurrentStep(t).Some? && CurrentStep(t).value.targetId == Some(r.value.id)
  {
    match CurrentStep(t)
    case None => None
    case Some(step) => FindWindow(ws, step.targetId)
  }

  /** Applies Next n times. */
  function Advance(t: TourState, n: nat): TourState
    decreases n
  {
    if n == 0 then t else Advance(Next(t), n - 1)
  }

  // ---------------------------------------------------------------------------
  // Properties

  /** Every event keeps the index within [-1, |Steps| - 1]. */
  lemma EventsKeepValid(t: TourState)
    requires Valid(t)
    ensures Valid(Next(t)) && Valid(Skip(t)) && Valid(Start(t))
  {
  }

  /** From step i, the remaining steps are shown in order and the Next after
      the last one ends the tour with the flag stored. */
  lemma {:induction false} AdvanceCompletes(t: TourState, n: nat)
    requires Valid(t) && Active(t) && n == |Steps| - t.index
    ensures Advance(t, n) == TourState(-1, true)
    ensures forall k :: 0 <= k < n ==> Advance(t, k) == t.(index := t.index + k)
    decreases n
  {
    if t.index + 1 < |Steps| {
      AdvanceCompletes(Next(t), n - 1);
      forall k | 0 <= k < n
        ensures Advance(t, k) == t.(index := t.index + k)
      {
        if k > 0 {
          assert Advance(t, k) == Advance(Next(t), k - 1);
        }
      }
    } else {
      assert Advance(t, n) == Advance(Next(t), 0);
    }
  }

  /** Three Nexts from the first step end the shipped tour. */
  lemma ThreeNextsFromStart(t: TourState)
    ensures Next(Next(Next(Start(t)))) == TourState(-1, true)
    ensures Active(Next(Next(Start(t))))
  {
    AdvanceCompletes(Start(t), 3);
  }

  /** The auto-start, scheduled at mount when no completed flag is stored, is
      never cancelled. If the user starts the tour by hand and skips it before
      the delay elapses, the delayed start still fires and shows the tour again
      although the completed flag is already stored. */
  lemma LateAutoStartReopensSkippedTour()
    ensures var skipped := Skip(Start(Mount(false)));
      !Active(skipped) && skipped.completed
      && Active(Start(skipped)) && Start(skipped).completed
  {
  }

  /** The lookup does not look at `isOpen`: a closed window is returned like an open one. */
  lemma FindWindowIgnoresVisibility(w: WindowState, rest: seq<WindowState>)
    ensures FindWindow([w] + rest, Some(w.id)) == Some(w)
    ensures FindWindow([w.(isOpen := false)] + rest, Some(w.id)) == Some(w.(isOpen := false))
  {
  }

  /** No shipped step names a window, so the lookup never finds one. */
  lemma ShippedStepsTargetNoWindow(ws: seq<WindowState>, t: TourState)
    ensures TargetWindow(ws, t) == None
  {
  }
}

=== FILE: tour_overlay.dfy ===
/** The tour card: where it is placed for the current step, what its counter
    and button read, and which tour handler each of its clicks reaches. */
module TourOverlay {
  import opened Types
  import Tour

  /** Card placement. Pixel offsets for the fixed anchors; a card beside a
      window is placed from the window's geometry, with the half height
      computed exactly (as a real), since the page divides without rounding. */
  datatype Anchor =
    | BottomCentre(bottom: int)
    | TopLeft(top: int, left: int)
    | Centre
    | Beside(cardTop: real, cardLeft: real)

  /** Distance of the dock card from the bottom edge. */
  const DockBottom: int := 120
  const StatusTop: int := 80
  const StatusLeft: int := 20
  /** Horizontal gap between a window's right edge and a card beside it. */
  const Gap: int := 20

  /** Where the card goes for a step target, given the target window's
      position and size when they are known. */
  function Placement(target: Target, pos: Option<Position>, size: Option<Size>): (a: Anchor)
    ensures a == BottomCentre(DockBottom) <==> target == Dock
    ensures a == TopLeft(StatusTop, StatusLeft) <==> target == Status
    ensures a.Beside? <==> target == WindowTarget && pos.Some? && size.Some?
    ensures a == Centre <==> target == Center || (target == WindowTarget && (pos.None? || size.None?))
    ensures a.Beside? ==>
      && a.cardTop - (pos.value.y as real) == (size.value.height as real) / 2.0
      && a.cardLeft - (Gap as real) == (pos.value.x + size.value.width) as real
  {
    match target
    case Dock => BottomCentre(DockBottom)
    case Status => TopLeft(StatusTop, StatusLeft)
    case WindowTarget =>
      if pos.Some? && size.Some? then
        Beside((pos.value.y as real) + (size.value.height as real) / 2.0,
               (pos.value.x + size.value.width + Gap) as real)
      else Centre
    case Center => Centre
  }

  /** The card's forward button reads "Initialize" on the last step. */
  function NextLabel(current: int, total: int): (text: string)
    ensures text == "Initialize" <==> current == total - 1
    ensures text == "Initialize" || text == "Next"
  {
    if current == total - 1 then "Initialize" else "Next"
  }

  /** What the card shows: the step, its placement, "STEP n/total" and the button text. */
  datatype Card = Card(step: TourStep, anchor: Anchor, stepNumber: int, totalSteps: int, nextLabel: string)

  /** The overlay is drawn while the tour is active, for the current step and
      the window that step targets. */
  function Render(t: Tour.TourState, ws: seq<WindowState>): (c: Option<Card>)
    requires Tour.Valid(t)
    ensures c.Some? <==> Tour.Active(t)
    ensures c.Some? ==> Tour.CurrentStep(t) == Some(c.value.step)
    ensures c.Some? ==> 1 <= c.value.stepNumber <= c.value.totalSteps == |Tour.Steps|
    ensures c.Some? ==> c.value.stepNumber == t.index + 1
    ensures c.Some? ==> (c.value.nextLabel == "Initialize" <==> c.value.stepNumber == c.value.totalSteps)
    ensures c.Some? ==> c.value.nextLabel == NextLabel(t.index, |Tour.Steps|)
  {
    if !Tour.Active(t) then None
    else
      var step := Tour.Steps[t.index];
      var target := Tour.TargetWindow(ws, t);
      var pos := if target.Some? then Some(target.value.position) else None;
      var size := if target.Some? then Some(target.value.size) else None;
      Some(Card(step, Placement(step.target, pos, size), t.index + 1, |Tour.Steps|,
                NextLabel(t.index, |Tour.Steps|)))
  }

  /** The clickable parts of the overlay. */
  datatype Click = Backdrop | CloseButton | NextButton

  /** The dimmed backdrop and the close button skip; only the button advances. */
  function OnClick(t: Tour.TourState, click: Click): (r: Tour.TourState)
    ensures !click.NextButton? ==> !Tour.Active(r) && r.completed
    ensures click.NextButton? && t.index + 1 < |Tour.Steps| ==>
      r.index == t.index + 1 && r.completed == t.completed
    ensures click.NextButton? && t.index + 1 >= |Tour.Steps| ==> !Tour.Active(r) && r.completed
    ensures Tour.Valid(t) ==> Tour.Valid(r)
  {
    match click
    case Backdrop => Tour.Skip(t)
    case CloseButton => Tour.Skip(t)
    case NextButton => Tour.Next(t)
  }

  // ---------------------------------------------------------------------------
  // Properties

  /** On any step but the last, a click moves to the next step exactly when
      it is the forward button. */
  lemma OnlyNextButtonAdvances(t: Tour.TourState, click: Click)
    requires Tour.Valid(t) && Tour.Active(t) && t.index + 1 < |Tour.Steps|
    ensures OnClick(t, click).index == t.index + 1 <==> click == NextButton
  {
  }

  /** The backdrop and the close button have the same effect. */
  lemma BackdropIsCloseButton(t: Tour.TourState)
    ensures OnClick(t, Backdrop) == OnClick(t, CloseButton) == Tour.Skip(t)
  {
  }

  /** The shipped tour centres its first and last cards and puts the second
      above the dock; no card is ever placed beside a window. */
  lemma ShippedPlacements(t: Tour.TourState, ws: seq<WindowState>)
    requires Tour.Valid(t) && Tour.Active(t)
    ensures Render(t, ws).Some?
    ensures t.index == 1 ==> Render(t, ws).value.anchor == BottomCentre(DockBottom)
    ensures t.index != 1 ==> Render(t, ws).value.anchor == Centre
    ensures !Render(t, ws).value.anchor.Beside?
  {
    Tour.ShippedStepsTargetNoWindow(ws, t);
  }
}

=== FILE: types.dfy ===
/** The records every part of the desktop shares: application identities,
    geometry, window records, tour steps, and the commands a window sends to
    the registry. Rendered content and icons are presentation and are not
    part of the model. */
module Types {

  datatype Option<+T> = None | Some(value: T)

  /** The fixed set of applications; the registry holds one window per identity. */
  datatype AppId =
    | BillSystem
    | SpatialGallery
    | SystemMonitor
    | Notes
    | Settings
    | WebBrowser
    | FileManager

  /** Viewport pixels, top-left anchored. Pointer coordinates are modelled as integers. */
  datatype Position = Position(x: int, y: int)

  datatype Size = Size(width: int, height: int)

  /** One window record. */
  datatype WindowState = WindowState(
    id: AppId,
    title: string,
    isOpen: bool,
    isMinimized: bool,
    zIndex: int,
    position: Position,
    size: Size)
  {
    /** Open and not minimized: the window is drawn in the spatial layer and
        receives pointer presses; the dock draws its icon highlighted. */
    predicate Visible() {
      isOpen && !isMinimized
    }
  }

  /** What a window's buttons and gestures ask the registry to do. */
  datatype Command =
    | FocusCmd(id: AppId)
    | MoveCmd(id: AppId, pos: Position)
    | ResizeCmd(id: AppId, size: Size)
    | MinimizeCmd(id: AppId)
    | CloseCmd(id: AppId)

  /** Where a tour step points. */
  datatype Target = Center | Dock | WindowTarget | Status

  datatype TourStep = TourStep(
    target: Target,
    title: string,
    description: string,
    targetId: Option<AppId>)
}
